=== FILE: README.md ===
# DM-Report: a Dafny model of the report lifecycle

DM-Report is a chat-platform bot running as a serverless worker. A user flags a
direct message from its context menu (`startReport`); the bot keeps the report
for ten minutes in a key-value namespace under the user's id. The user then
runs `/report` in a guild (`finishReport`): the bot checks that both the user
and the message's author are members of that guild, fills in the members, the
guild and the reason, posts the report to the guild's logging channel (set by
`/setchannel`, `setChannel`), attempts to edit the original reply (addressed
with the bot token, see below) and deletes
the pending report. A `fetch` entry point routes each signed interaction to
one of these.

The model is functional. Every handler is a pure function from an interaction,
the namespace and the current time to an `Outcome`: the reply, the namespace
afterwards, and the log of effects issued, in order (`Put`, `Delete`, `Send`,
`Edit`). So "nothing written, nothing sent" is stated exactly as
`o.store == store && o.log == []`.

Files and modules:

- `wrappers.dfy` (`Wrappers`): `Option`, for the source's `null`/`undefined`.
- `kv.dfy` (`Kv`): the key-value namespace. It is one map from keys to entries, each with an optional expiry instant. An expired entry reads as absent.
- `discord.dfy` (`Discord`): the platform records used by the flow: users, members, messages, command options, interactions and embeds. It also holds JavaScript truthiness of optional strings.
- `reports.dfy` (`Reports`): the `Report` record and `reportToEmbed`. Each part of the embed has a reader that recovers it: `Unfence` for the fenced description, `Unmention` for the mention fields, `ReporterName` for the title and `ReportedTo` for the footer.
- `lifecycle.dfy` (`Lifecycle`): `startReport`, `finishReport` and `setChannel`, plus how a log of effects replays onto the namespace.
- `laws.dfy` (`ReportLaws`): properties that relate several transitions. These are the namespace invariant, the at-most-once publication count, and the lifecycle scenarios.
- `router.dfy` (`Router`): `fetch`, and runs of it over a sequence of requests.

Inputs that come from outside are parameters:

- the signature verdict (`signatureValid`);
- the clock (`now`);
- the member lookup (`isMember: (guildId, userId) -> Option<Member>`);
- the configuration (`Config(appId, botToken)`).

## Behaviour of the code worth knowing

The model follows the code in each case below.

- The edit of the original reply is addressed by the application id and the **bot token**, not by the report's stored interaction token (src/discord/utils.ts:141-145). `Edit(cfg.appId, cfg.botToken, e)` records exactly that.
- A finished report's `reason` can stay unset. This happens when the command has no options, or when its first option is not a String (src/discord/utils.ts:130-133). So a finished report can carry both members and a guild but no reason.
- The code checks guild ids and channel ids with JavaScript truthiness, so an empty string counts as absent. This applies to the router's `guild_id` check, the footer's `guildId` check and the logging-channel check.
- User keys and guild keys share one namespace. A `/setchannel` whose guild id equals a pending reporter's id overwrites that report. A report stored under a guild's key reads as a (truthy) channel, and `Send` then targets that value. This is why `Send` carries the raw `Value` read from the guild's key.
- A guild command other than `report` or `setchannel`, and any interaction type other than Ping or ApplicationCommand, get status 401 with an empty body. They do not get a JSON reply.
- A non-guild application command always goes to `startReport`. If it is not a message context-menu command (command type 3), the reply is "Failed to make report".

## Model

| member | source | states |
|---|---|---|
| Kv.Get | src/discord/utils.ts:106 | An entry reads as its value while `now` is before its expiry (always, without one), and as absent once the expiry has passed or when the key is missing. |
| Kv.Put | src/discord/utils.ts:78-84 | A put with a time-to-live is readable until that many time units after `now` and absent from then on. Without a time-to-live it stays readable. It replaces whatever the key held, and every other key reads as before. |
| Kv.Delete | src/discord/utils.ts:146 | After a delete the key reads as absent at every instant, and every other key reads as before. |
| Reports.ToEmbed | src/discord/utils.ts:14-44 | The title names the reporter exactly when `author` is set, and is "DM Report (unfinished)" otherwise. The description reads back as the flagged content verbatim. The fields exist iff both `author` and `reportee` are set; they are then exactly Reporter and Reported (inline mentions of the two user ids) and Reason (the reason, or "No reason provided."). The footer names the guild iff `guildId` is truthy, and otherwise is the "Use the /report command…" text. The embed's link points at the flagged message. |
| Reports.UnfenceInvertsFence | src/discord/utils.ts:24 | A description reads back as content `c` if and only if it is `c` wrapped in a spoiler-hidden code fence. So the wrapping loses nothing and adds nothing. |
| Reports.UnmentionInvertsMention | src/discord/utils.ts:29-34 | A field value reads back as id `x` if and only if it is the mention `<@x>`. |
| Reports.UnfinishedTextsDifferFromPrefixes | src/discord/utils.ts:23-42 | The unfinished title names no reporter, and the "Use the /report command…" footer names no guild. So the two states of the embed cannot be confused. |
| Reports.TitleReadsBack | src/discord/utils.ts:23 | The title yields the reporter's username (or "undefined" for a member without a user) exactly when `author` is set. An unfinished title yields no name. |
| Reports.FooterReadsBack | src/discord/utils.ts:42 | The footer yields the guild id exactly when `guildId` is non-null and non-empty. |
| Reports.FieldsReadBack | src/discord/utils.ts:25-41 | When present, the three fields carry, in order, the reporter's id, the reportee's id and the reason text. The two mentions are inline and the reason is not. |
| Lifecycle.ReasonFrom | src/discord/utils.ts:130-133 | The reason is untouched when no options were sent. Otherwise it is set iff the first option is a String, and then it is that option's text. |
| Lifecycle.Finish | src/discord/utils.ts:127-133 | Enrichment sets both member records and the guild, leaves the flagged message and the token as they were, and takes the reason from the options. |
| Lifecycle.ApplyDelivery | src/discord/utils.ts:136-146 | Of the delivery's three effects (send, edit, delete), only the delete changes the namespace. |
| Lifecycle.StartReport | src/discord/utils.ts:54-100 | A trigger that is not a message command gets "Failed to make report". A report of one's own message gets "You cannot self-report". Both write nothing and send nothing. Otherwise there is exactly one put, keyed by the acting user with TTL 600: an unfinished report of the target message carrying the interaction's token. It is readable for 600 time units whatever the key held before. The reply renders it as unfinished with no fields and shows the content verbatim. No other key changes, and the namespace afterwards is the log replayed. |
| Lifecycle.FinishReport | src/discord/utils.ts:102-162 | Checks run in order. No live report under the user's key gives "Failed to find report". Either member missing from the guild gives "Reporter/Reportee/Bot not in server". No truthy channel for the guild gives "Server not taking reports". Each of these leaves the namespace unchanged and sends nothing. On success the log is exactly: send to the channel read, edit via app id and bot token, delete the user's key. All three use the embed that is returned, which names the reporter, shows the content, both looked-up members' ids and the reason, and the guild. Afterwards the user's key reads as absent at all times. |
| Lifecycle.SetChannel | src/discord/utils.ts:164-188 | A first option of type Channel makes that channel the guild's logging channel with no expiry, overwriting any earlier one. The reply is "Logging channel set to <#id>". Any other input gets "failed to set logging channel", writes nothing and sends nothing. |
| ReportLaws.StartReportKeepsReports | src/discord/utils.ts:59-84 | `startReport` keeps this invariant: every report in the namespace sits under a user who did not write the message, is unfinished, and expires. |
| ReportLaws.FinishReportKeepsReports | src/discord/utils.ts:106-161 | `finishReport` keeps the same invariant. It only deletes, so it never stores an enriched report. |
| ReportLaws.SetChannelKeepsReports | src/discord/utils.ts:171 | `setChannel` keeps the same invariant. It only ever writes a channel id. |
| ReportLaws.StartReportPublishesWithin | src/discord/utils.ts:78-84 | `startReport` publishes nothing and writes at most one report, so it adds at most one report key. |
| ReportLaws.FinishReportPublishesWithin | src/discord/utils.ts:134-146 | Each publication by `finishReport` is paid for by deleting the report it published. |
| ReportLaws.SetChannelPublishesWithin | src/discord/utils.ts:171 | `setChannel` publishes nothing and writes no report, so it never adds a report key. |
| ReportLaws.FinishTwiceFindsNothing | src/discord/utils.ts:106-146 | After a successful `finishReport`, a later `/report` by the same user (any token, guild or options) answers "Failed to find report", changes nothing and sends nothing. This holds at any time and whatever the lookups say. |
| ReportLaws.UnfinishedReportExpires | src/discord/utils.ts:78-115 | A report captured at `now` and not finished before `now + 600` answers "Failed to find report", with nothing changed. |
| ReportLaws.RetryAfterMembershipFailure | src/discord/utils.ts:116-126 | A membership failure leaves the namespace exactly as it was. A retry (a new `/report` by the same user in the same guild, with any token or options) while the report is still live, with both members found and a channel set, succeeds and publishes the stored message's content. |
| ReportLaws.RoundTrip | src/discord/utils.ts:54-162 | Take a channel `c` set for guild `g`, a capture by `u` of someone else's message, and a finish in `g` before expiry with both members found. The result is: send to `c`, edit, delete `u`, in that order. The embed shows the message, the ids of both members the lookup returned, and the reason. Nothing is then left under `u`. |
| ReportLaws.RoundTripMentionsParties | src/discord/utils.ts:116-140 | Take the same round with a member lookup that returns the record of the user it was asked about, as the platform's lookup does. Then the published embed's Reporter field mentions `u`, its Reported field mentions the flagged message's author, and its description is the flagged content. |
| ReportLaws.SpamLinkScenario | src/discord/utils.ts:102-162 | G1 logs to C1. U1 flags "spam link here" by U2 and finishes with reason "unsolicited advertising". The result is a send to C1 whose embed shows that text, mentions U1 and U2 and gives that reason. Afterwards U1's key reads as absent at every instant. |
| Router.Fetch | src/index.ts:13-48 | A bad signature gets 401 with no effects. A Ping gets Pong. A guild-scoped application command goes to `finishReport` if named `report`, to `setChannel` if named `setchannel`, and otherwise gets 401. A non-guild application command goes to `startReport` whatever its type. Any other interaction type gets 401. A 401 never changes the namespace. |
| Router.FetchKeepsReports | src/index.ts:24-44 | Every request, however routed, keeps the namespace invariant. |
| Router.FetchPublishesWithin | src/index.ts:24-44 | Every request, however routed, publishes only by spending a stored report. |
| Router.Run | src/index.ts:13-48 | Handling a sequence of requests one after another gives exactly one reply per request. The first reply is `fetch`'s answer to the first request. |
| Router.RunAnswersEachRequest | src/index.ts:13-48 | In a run, request k gets exactly the reply `fetch` would give it on the namespace the first k requests left behind. So a run is `fetch` applied request by request, each handler re-reading the current namespace. |
| Router.RunKeepsReports | src/index.ts:13-48 | Starting from a namespace that satisfies the invariant, no sequence of requests can leave a self-report, a half-finished report or a report without expiry in the namespace. |
| Router.RunPublishesWithin | src/index.ts:13-48 | Over any sequence of requests, publications plus the reports left in the namespace are at most the reports at the start plus the reports captured. |
| Router.PublishedAtMostOnce | src/discord/utils.ts:134-146 | Starting from a namespace with no reports, no sequence of requests publishes more reports than it captured. |

## Left out

- `src/discord/rest.ts`: it is only HTTP wrappers. `getMember` becomes the `isMember` parameter. `sendMessage` and `editInteractionMessage` become the `Send` and `Edit` effects. `ban`, `kick`, `timeout`, `addRole` and `removeRole` are not used by the report flow.
- `isUserMember`: a one-line wrapper around `getMember` that nothing in the flow calls.
- Ed25519 signature verification: a library call, so the model takes its verdict as the boolean `signatureValid`.
- JSON serialisation and parsing of reports, replies and member records; response headers and status plumbing; `console.log`. A report is stored and read back as the record itself. A member record is whatever the lookup returns.
- Wall-clock time: `now` is a parameter, and each entry stores an absolute expiry instant.
- `async`/`await` and concurrent requests: handling is sequential and one request at a time.
- Delivery failures: the source never checks the status of the send or the edit, and the model does not model them failing.
- Thrown collaborator calls: a `getMember`, `sendMessage` or `editInteractionMessage` whose fetch rejects makes the handler throw. For the send and the edit this skips the delete, so `PublishedAtMostOnce` assumes neither throws.
- Two throwing paths become preconditions: an `options` array that is present but empty (`OptionsReadable`), and a message command whose resolved target message is missing.
- Lifecycle.FinishReport: when a user's key holds plain text (a channel id written by `/setchannel` for an equal guild id), reading it as JSON is modelled as the handler throwing (`Crashed`). The rare texts that parse to a falsy JSON value (`0`, `null`, `false`) would instead answer "Failed to find report"; that case is not modelled.
- Reports.ToEmbed: the contract pins down the embed's link to the message, but not its fixed author name and icon URL. Those are constants in the body.

=== FILE: discord.dfy ===
/**
 * The slice of the chat platform's API records that the report flow reads
 * and writes: users, guild members, messages, slash-command options,
 * inbound interactions and outbound embeds.
 */
module Discord {
  import opened Wrappers

  /** `InteractionType.Ping`. */
  const PING: int := 1
  /** `InteractionType.ApplicationCommand`. */
  const APPLICATION_COMMAND: int := 2
  /** `ApplicationCommandType.Message`: a command picked from a message's context menu. */
  const MESSAGE_COMMAND: int := 3

  datatype User = User(id: string, username: string)

  /** A guild member record as the member lookup returns it; its `user` is optional in the API. */
  datatype Member = Member(user: Option<User>)

  /** A chat message: `channelId` and `id` locate it, `author` wrote it. */
  datatype Message = Message(id: string, channelId: string, content: string, author: User)

  /** `ApplicationCommandOptionType.String`. */
  const STRING_OPTION: int := 3
  /** `ApplicationCommandOptionType.Channel`. */
  const CHANNEL_OPTION: int := 7

  /** Every option type code other than String and Channel. */
  type OtherKind = k: int | k != STRING_OPTION && k != CHANNEL_OPTION witness 1

  /**
   * A slash-command option. The API tags options with `ApplicationCommandOptionType`
   * codes; String and Channel are the two the flow looks at, and every other
   * code is an `OtherOption`.
   */
  datatype CommandOption =
    | StringOption(text: string)
    | ChannelOption(channelId: string)
    | OtherOption(kind: OtherKind)

  /**
   * The `data` of an application command: its name, its command type, its
   * options (absent when the command was sent without any) and, for a message
   * context-menu command, the resolved target message.
   */
  datatype CommandData = CommandData(
    name: string,
    commandType: int,
    options: Option<seq<CommandOption>>,
    target: Option<Message>)

  /**
   * One inbound interaction. `user` is the acting user: `member.user` when the
   * interaction comes from a guild, `user` when it comes from a direct message.
   */
  datatype Interaction = Interaction(
    kind: int,
    guildId: Option<string>,
    user: User,
    token: string,
    data: CommandData)

  /** JavaScript truthiness of an optional string: null and "" are both falsy. */
  predicate Truthy(s: Option<string>) {
    s.Some? && s.value != ""
  }

  /** The command's first option; reading it from a present but empty array would throw. */
  predicate OptionsReadable(d: CommandData) {
    d.options.Some? ==> |d.options.value| > 0
  }

  datatype Field = Field(name: string, inline: bool, value: string)

  datatype EmbedAuthor = EmbedAuthor(name: string, url: string, iconUrl: string)

  /** A rich embed; `fields` is absent (undefined) rather than empty when there are none. */
  datatype Embed = Embed(
    author: EmbedAuthor,
    title: string,
    description: string,
    fields: Option<seq<Field>>,
    footer: string)
}

=== FILE: kv.dfy ===
/**
 * The worker's key-value namespace: one flat map from string keys to values.
 * A value written with a time-to-live carries the instant at which it stops
 * being readable; from then on it reads exactly like an absent key.
 */
module Kv {
  import opened Wrappers

  datatype Entry<V> = Entry(value: V, expiresAt: Option<int>)

  type Store<V> = map<string, Entry<V>>

  /** An entry is readable at `now` while its expiry instant is still ahead. */
  predicate Live<V>(e: Entry<V>, now: int) {
    e.expiresAt.None? || now < e.expiresAt.value
  }

  /** `get`: an absent key and an expired entry are indistinguishable. */
  function Get<V>(s: Store<V>, key: string, now: int): (r: Option<V>)
    ensures key !in s ==> r.None?
    ensures key in s && s[key].expiresAt.Some? && s[key].expiresAt.value <= now ==> r.None?
    ensures key in s && (s[key].expiresAt.None? || now < s[key].expiresAt.value) ==> r == Some(s[key].value)
  {
    if key in s && Live(s[key], now) then Some(s[key].value) else None
  }

  /**
   * `put`, with an optional time-to-live counted from `now`. The new value is
   * readable until the time-to-live runs out (forever without one), whatever
   * the key held before, and no other key reads differently.
   */
  function Put<V>(s: Store<V>, key: string, v: V, ttl: Option<int>, now: int): (s': Store<V>)
    ensures forall t :: Get(s', key, t) == (if ttl.None? || t < now + ttl.value then Some(v) else None)
    ensures forall k, t :: k != key ==> Get(s', k, t) == Get(s, k, t)
    ensures s'.Keys == s.Keys + {key}
  {
    s[key := Entry(v, if ttl.Some? then Some(now + ttl.value) else None)]
  }

  /** `delete`: the key reads as absent at every instant; no other key changes. */
  function Delete<V>(s: Store<V>, key: string): (s': Store<V>)
    ensures forall t :: Get(s', key, t) == None
    ensures forall k, t :: k != key ==> Get(s', k, t) == Get(s, k, t)
    ensures s'.Keys == s.Keys - {key}
  {
    s - {key}
  }
}

=== FILE: laws.dfy ===
/**
 * Properties of the report lifecycle that relate several transitions: the
 * namespace invariant every transition keeps, the count showing a report is
 * published at most once, and the lifecycle scenarios (finish twice, finish
 * after expiry, retry after a failed membership check, a full round).
 */
module ReportLaws {
  import opened Wrappers
  import opened Discord
  import opened Reports
  import opened Lifecycle
  import Kv

  /**
   * Every report the namespace holds sits under the key of a user who did not
   * write the flagged message, is unfinished, and carries an expiry.
   */
  predicate ReportsWellKept(s: Store) {
    forall k :: k in s && s[k].value.ReportJson? ==>
      && s[k].value.report.message.author.id != k
      && Unfinished(s[k].value.report)
      && s[k].expiresAt.Some?
  }

  lemma StartReportKeepsReports(i: Interaction, store: Store, now: int)
    requires i.data.commandType == MESSAGE_COMMAND ==> i.data.target.Some?
    requires ReportsWellKept(store)
    ensures ReportsWellKept(StartReport(i, store, now).store)
  {
  }

  lemma FinishReportKeepsReports(i: Interaction, cfg: Config, store: Store, now: int, isMember: MemberLookup)
    requires i.guildId.Some? && OptionsReadable(i.data)
    requires ReportsWellKept(store)
    ensures ReportsWellKept(FinishReport(i, cfg, store, now, isMember).store)
  {
  }

  lemma SetChannelKeepsReports(i: Interaction, store: Store, now: int)
    requires i.guildId.Some? && OptionsReadable(i.data)
    requires ReportsWellKept(store)
    ensures ReportsWellKept(SetChannel(i, store, now).store)
  {
  }

  /** The keys that hold a report (live or expired). */
  function ReportKeys(s: Store): set<string> {
    set k | k in s && s[k].value.ReportJson?
  }

  /** How many messages a log publishes to a channel. */
  function Sends(log: seq<Effect>): nat
    decreases |log|
  {
    if log == [] then 0 else (if log[0].Send? then 1 else 0) + Sends(log[1..])
  }

  /** How many reports a log writes into the namespace. */
  function ReportPuts(log: seq<Effect>): nat
    decreases |log|
  {
    if log == [] then 0 else (if log[0].Put? && log[0].value.ReportJson? then 1 else 0) + ReportPuts(log[1..])
  }

  lemma {:induction false} CountsAppend(a: seq<Effect>, b: seq<Effect>)
    ensures Sends(a + b) == Sends(a) + Sends(b)
    ensures ReportPuts(a + b) == ReportPuts(a) + ReportPuts(b)
  {
    if a == [] {
      assert a + b == b;
    } else {
      assert (a + b)[0] == a[0];
      assert (a + b)[1..] == a[1..] + b;
      CountsAppend(a[1..], b);
    }
  }

  /**
   * Publishing is paid for by reports: what a step publishes, plus the reports
   * left in the namespace after it, never exceeds the reports there before it
   * plus the reports it wrote.
   */
  predicate PublishesWithin(before: Store, o: Outcome) {
    Sends(o.log) + |ReportKeys(o.store)| <= |ReportKeys(before)| + ReportPuts(o.log)
  }

  lemma ReportKeysAfterPut(s: Store, key: string, v: Value, ttl: Option<int>, now: int)
    ensures v.ReportJson? ==> ReportKeys(Kv.Put(s, key, v, ttl, now)) == ReportKeys(s) + {key}
    ensures v.Text? ==> ReportKeys(Kv.Put(s, key, v, ttl, now)) == ReportKeys(s) - {key}
  {
  }

  lemma ReportKeysAfterDelete(s: Store, key: string)
    ensures ReportKeys(Kv.Delete(s, key)) == ReportKeys(s) - {key}
  {
  }

  lemma DeliveryCounts(send: Effect, edit: Effect, key: string)
    requires send.Send? && edit.Edit?
    ensures Sends([send, edit, Delete(key)]) == 1
    ensures ReportPuts([send, edit, Delete(key)]) == 0
  {
    var log := [send, edit, Delete(key)];
    assert log[1..] == [edit, Delete(key)];
    assert [edit, Delete(key)][1..] == [Delete(key)];
    assert [Delete(key)][1..] == [];
    assert Sends([Delete(key)]) == 0 && ReportPuts([Delete(key)]) == 0;
    assert Sends([edit, Delete(key)]) == 0 && ReportPuts([edit, Delete(key)]) == 0;
  }

  lemma StartReportPublishesWithin(i: Interaction, store: Store, now: int)
    requires i.data.commandType == MESSAGE_COMMAND ==> i.data.target.Some?
    ensures PublishesWithin(store, StartReport(i, store, now))
    ensures Sends(StartReport(i, store, now).log) == 0
    ensures ReportPuts(StartReport(i, store, now).log) <= 1
    ensures |ReportKeys(StartReport(i, store, now).store)| <= |ReportKeys(store)| + 1
  {
    var o := StartReport(i, store, now);
    if o.reply.Rendered? {
      var v := o.log[0].value;
      ReportKeysAfterPut(store, i.user.id, v, Some(REPORT_TTL), now);
      assert o.store == Kv.Put(store, i.user.id, v, Some(REPORT_TTL), now);
      assert Sends(o.log) == 0 && ReportPuts(o.log) == 1;
    }
  }

  lemma FinishReportPublishesWithin(i: Interaction, cfg: Config, store: Store, now: int, isMember: MemberLookup)
    requires i.guildId.Some? && OptionsReadable(i.data)
    ensures PublishesWithin(store, FinishReport(i, cfg, store, now, isMember))
  {
    var o := FinishReport(i, cfg, store, now, isMember);
    if o.reply.Rendered? {
      var user := i.user.id;
      assert user in ReportKeys(store);
      assert o.store == Kv.Delete(store, user);
      ReportKeysAfterDelete(store, user);
      assert |o.log| == 3 && o.log[0].Send? && o.log[1].Edit? && o.log[2] == Delete(user);
      assert o.log == [o.log[0], o.log[1], Delete(user)];
      DeliveryCounts(o.log[0], o.log[1], user);
    }
  }

  lemma SetChannelPublishesWithin(i: Interaction, store: Store, now: int)
    requires i.guildId.Some? && OptionsReadable(i.data)
    ensures PublishesWithin(store, SetChannel(i, store, now))
    ensures Sends(SetChannel(i, store, now).log) == 0
    ensures ReportPuts(SetChannel(i, store, now).log) == 0
    ensures |ReportKeys(SetChannel(i, store, now).store)| <= |ReportKeys(store)|
  {
    var o := SetChannel(i, store, now);
    if o.log != [] {
      var c := i.data.options.value[0].channelId;
      ReportKeysAfterPut(store, i.guildId.value, Text(c), None, now);
      assert o.store == Kv.Put(store, i.guildId.value, Text(c), None, now);
    }
  }

  /**
   * Once a report is finished its key is gone: a later `/report` by the same
   * user, with any token, guild or options, at any time and whatever the
   * lookups say, finds nothing.
   */
  lemma FinishTwiceFindsNothing(i: Interaction, cfg: Config, store: Store, now: int, isMember: MemberLookup,
                                again: Interaction, later: int, isMemberLater: MemberLookup)
    requires i.guildId.Some? && OptionsReadable(i.data)
    requires again.guildId.Some? && OptionsReadable(again.data) && again.user.id == i.user.id
    requires FinishReport(i, cfg, store, now, isMember).reply.Rendered?
    ensures var after := FinishReport(i, cfg, store, now, isMember).store;
            FinishReport(again, cfg, after, later, isMemberLater) == Outcome(Notice(NOT_FOUND), after, [])
  {
  }

  /** A report nobody finishes within REPORT_TTL of its capture is no longer found. */
  lemma UnfinishedReportExpires(start: Interaction, finish: Interaction, cfg: Config, store: Store,
                                now: int, later: int, isMember: MemberLookup)
    requires start.data.commandType == MESSAGE_COMMAND ==> start.data.target.Some?
    requires finish.guildId.Some? && OptionsReadable(finish.data)
    requires StartReport(start, store, now).reply.Rendered?
    requires finish.user.id == start.user.id
    requires now + REPORT_TTL <= later
    ensures var after := StartReport(start, store, now).store;
            FinishReport(finish, cfg, after, later, isMember) == Outcome(Notice(NOT_FOUND), after, [])
  {
  }

  /**
   * A membership failure leaves the pending report where it was, so a retry
   * (a new `/report` by the same user in the same guild, with any token or
   * options) while it is still live, once both members are found and a logging channel
   * is set, publishes it.
   */
  lemma RetryAfterMembershipFailure(i: Interaction, cfg: Config, store: Store, now: int, isMember: MemberLookup,
                                    retry: Interaction, later: int, isMemberLater: MemberLookup)
    requires i.guildId.Some? && OptionsReadable(i.data)
    requires retry.guildId == i.guildId && OptionsReadable(retry.data) && retry.user.id == i.user.id
    requires FinishReport(i, cfg, store, now, isMember).reply == Notice(NOT_IN_SERVER)
    requires i.user.id in store && store[i.user.id].value.ReportJson?
    requires Kv.Live(store[i.user.id], later)
    requires isMemberLater(i.guildId.value, i.user.id).Some?
    requires isMemberLater(i.guildId.value, store[i.user.id].value.report.message.author.id).Some?
    requires Kv.Get(store, i.guildId.value, later).Some? && Publishable(Kv.Get(store, i.guildId.value, later).value)
    ensures var after := FinishReport(i, cfg, store, now, isMember).store;
            && after == store
            && FinishReport(retry, cfg, after, later, isMemberLater).reply.Rendered?
            && Unfence(FinishReport(retry, cfg, after, later, isMemberLater).reply.embed.description)
               == Some(store[i.user.id].value.report.message.content)
  {
  }

  /**
   * A full round. With a logging channel `c` set for guild `g`, a user `u`
   * (whose key is not `g`) flags a message written by someone else, then
   * finishes the report in `g` before it expires with both members found:
   * the report goes to `c` showing the message, both parties and the reason,
   * the original reply is edited with the same embed, and `u`'s key is gone.
   */
  lemma RoundTrip(start: Interaction, finish: Interaction, cfg: Config, store: Store,
                  t1: int, t2: int, isMember: MemberLookup, c: string)
    requires start.data.commandType == MESSAGE_COMMAND && start.data.target.Some?
    requires start.data.target.value.author.id != start.user.id
    requires finish.guildId.Some? && OptionsReadable(finish.data)
    requires finish.user.id == start.user.id && finish.guildId.value != start.user.id
    requires t1 <= t2 < t1 + REPORT_TTL
    requires Kv.Get(store, finish.guildId.value, t2) == Some(Text(c)) && c != ""
    requires isMember(finish.guildId.value, start.user.id).Some?
    requires isMember(finish.guildId.value, start.data.target.value.author.id).Some?
    ensures var o := FinishReport(finish, cfg, StartReport(start, store, t1).store, t2, isMember);
            var m := start.data.target.value;
            var g := finish.guildId.value;
            && o.reply.Rendered?
            && o.log == [Send(Text(c), o.reply.embed), Edit(cfg.appId, cfg.botToken, o.reply.embed), Delete(start.user.id)]
            && ShowsFinished(o.reply.embed, Report(m, start.token, None, None, None, None),
                             isMember(g, start.user.id).value, isMember(g, m.author.id).value, g,
                             ReasonFrom(finish.data.options, None))
            && forall t :: Kv.Get(o.store, start.user.id, t).None?
  {
  }

  /**
   * A member lookup that answers, for guild `g`, with the record of the very
   * user it was asked about, as the platform's member lookup does.
   */
  ghost predicate LookupReturnsAskedUser(isMember: MemberLookup, g: string) {
    forall x :: isMember(g, x).Some? ==> isMember(g, x).value.user.Some? && isMember(g, x).value.user.value.id == x
  }

  /**
   * With a lookup that returns the asked-about user, the published report's
   * Reporter field mentions the reporter `u` and its Reported field mentions
   * the flagged message's author.
   */
  lemma RoundTripMentionsParties(start: Interaction, finish: Interaction, cfg: Config, store: Store,
                                 t1: int, t2: int, isMember: MemberLookup, c: string)
    requires start.data.commandType == MESSAGE_COMMAND && start.data.target.Some?
    requires start.data.target.value.author.id != start.user.id
    requires finish.guildId.Some? && OptionsReadable(finish.data)
    requires finish.user.id == start.user.id && finish.guildId.value != start.user.id
    requires t1 <= t2 < t1 + REPORT_TTL
    requires Kv.Get(store, finish.guildId.value, t2) == Some(Text(c)) && c != ""
    requires isMember(finish.guildId.value, start.user.id).Some?
    requires isMember(finish.guildId.value, start.data.target.value.author.id).Some?
    requires LookupReturnsAskedUser(isMember, finish.guildId.value)
    ensures var o := FinishReport(finish, cfg, StartReport(start, store, t1).store, t2, isMember);
            && o.reply.Rendered?
            && o.log[0] == Send(Text(c), o.reply.embed)
            && o.reply.embed.fields.Some? && |o.reply.embed.fields.value| == 3
            && Unmention(o.reply.embed.fields.value[0].value) == Some(start.user.id)
            && Unmention(o.reply.embed.fields.value[1].value) == Some(start.data.target.value.author.id)
            && Unfence(o.reply.embed.description) == Some(start.data.target.value.content)
  {
    RoundTrip(start, finish, cfg, store, t1, t2, isMember, c);
    var g := finish.guildId.value;
    assert UserIdOf(isMember(g, start.user.id).value) == start.user.id;
    assert UserIdOf(isMember(g, start.data.target.value.author.id).value) == start.data.target.value.author.id;
  }

  /**
   * The worked example: guild G1 logs to C1; U1 flags "spam link here" by U2
   * and finishes the report in G1 with the reason "unsolicited advertising".
   */
  lemma SpamLinkScenario()
    ensures var cfg := Config("app", "bot-token");
            var lookup: MemberLookup := (g: string, u: string) => Some(Member(Some(User(u, u))));
            var setc := Interaction(APPLICATION_COMMAND, Some("G1"), User("A1", "admin"), "t0",
                                    CommandData("setchannel", 1, Some([ChannelOption("C1")]), None));
            var m := Message("M1", "DM1", "spam link here", User("U2", "U2"));
            var start := Interaction(APPLICATION_COMMAND, None, User("U1", "U1"), "t1",
                                     CommandData("Report message", MESSAGE_COMMAND, None, Some(m)));
            var finish := Interaction(APPLICATION_COMMAND, Some("G1"), User("U1", "U1"), "t2",
                                      CommandData("report", 1, Some([StringOption("unsolicited advertising")]), None));
            var s0 := SetChannel(setc, map[], 0).store;
            var s1 := StartReport(start, s0, 10).store;
            var o := FinishReport(finish, cfg, s1, 20, lookup);
            && o.reply.Rendered?
            && |o.log| == 3 && o.log[0] == Send(Text("C1"), o.reply.embed)
            && Unfence(o.reply.embed.description) == Some("spam link here")
            && o.reply.embed.fields.Some?
            && Unmention(o.reply.embed.fields.value[0].value) == Some("U1")
            && Unmention(o.reply.embed.fields.value[1].value) == Some("U2")
            && o.reply.embed.fields.value[2].value == "unsolicited advertising"
            && forall t :: Kv.Get(o.store, "U1", t).None?
  {
  }
}

=== FILE: lifecycle.dfy ===
/**
 * The report lifecycle (`startReport`, `finishReport`, `setChannel`) as pure
 * transitions over the key-value namespace. Each transition returns the reply,
 * the namespace afterwards and the effects it issued, in the order issued.
 */
module Lifecycle {
  import opened Wrappers
  import opened Discord
  import opened Reports
  import Kv

  /** How long a captured report stays readable: its `expirationTtl`. */
  const REPORT_TTL: int := 600

  const MAKE_FAILED: string := "Failed to make report"
  const SELF_REPORT: string := "You cannot self-report"
  const NOT_FOUND: string := "Failed to find report"
  const NOT_IN_SERVER: string := "Reporter/Reportee/Bot not in server"
  const NOT_TAKING: string := "Server not taking reports"
  const SET_FAILED: string := "failed to set logging channel"
  const CHANNEL_SET: string := "Logging channel set to <#"

  /**
   * What a key holds. A user's key holds the JSON of that user's pending
   * report; a guild's key holds its logging channel id as plain text. Both
   * kinds of key share one namespace.
   */
  datatype Value = ReportJson(report: Report) | Text(text: string)

  type Store = Kv.Store<Value>

  /** The worker's configuration: the application id and the bot token. */
  datatype Config = Config(appId: string, botToken: string)

  /**
   * One effect, on the namespace or on the platform. `Send` names its
   * destination by the raw value read from the guild's key; `Edit` addresses
   * the original reply by application id and token.
   */
  datatype Effect =
    | Put(key: string, value: Value, ttl: Option<int>)
    | Delete(key: string)
    | Send(channel: Value, embed: Embed)
    | Edit(appId: string, token: string, embed: Embed)

  /**
   * The worker's HTTP answer. `Unauthorized` is status 401 with no body;
   * `Pong` answers a ping; `Notice` and `Rendered` are ephemeral
   * channel-message replies carrying a text or one embed; `Crashed` is an
   * exception escaping the handler.
   */
  datatype Reply =
    | Unauthorized
    | Pong
    | Notice(content: string)
    | Rendered(embed: Embed)
    | Crashed

  datatype Outcome = Outcome(reply: Reply, store: Store, log: seq<Effect>)

  /**
   * The member lookup `getMember(guildId, userId)`: the member record when
   * the lookup answers with a 2xx status, None when it answers with any
   * other status. A lookup that throws is not modelled.
   */
  type MemberLookup = (string, string) -> Option<Member>

  /** Replays the namespace effects of a log; platform effects leave it alone. */
  function ApplyLog(s: Store, log: seq<Effect>, now: int): Store
    decreases |log|
  {
    if log == [] then s
    else
      var s' := match log[0]
        case Put(k, v, ttl) => Kv.Put(s, k, v, ttl, now)
        case Delete(k) => Kv.Delete(s, k)
        case _ => s;
      ApplyLog(s', log[1..], now)
  }

  /** A delivery's log, send then edit then delete, changes the namespace only by the delete. */
  lemma ApplyDelivery(s: Store, send: Effect, edit: Effect, key: string, now: int)
    requires send.Send? && edit.Edit?
    ensures ApplyLog(s, [send, edit, Delete(key)], now) == Kv.Delete(s, key)
  {
    var log := [send, edit, Delete(key)];
    assert log[1..] == [edit, Delete(key)];
    assert [edit, Delete(key)][1..] == [Delete(key)];
    assert [Delete(key)][1..] == [];
    calc {
      ApplyLog(s, log, now);
      ApplyLog(s, [edit, Delete(key)], now);
      ApplyLog(s, [Delete(key)], now);
      ApplyLog(Kv.Delete(s, key), [], now);
    }
  }

  /**
   * JavaScript truthiness of what a guild's key reads as: `Discord.Truthy`
   * lifted to `Value`. A report's JSON text is never empty, so it is truthy.
   */
  predicate Publishable(v: Value) {
    v.Text? ==> v.text != ""
  }

  /** The new `reason`: changed only when options were sent, and then kept only if the first is a String. */
  function ReasonFrom(options: Option<seq<CommandOption>>, previous: Option<string>): (reason: Option<string>)
    requires options.Some? ==> |options.value| > 0
    ensures options.None? ==> reason == previous
    ensures options.Some? ==> (reason.Some? <==> options.value[0].StringOption?)
    ensures reason.Some? && options.Some? ==> reason.value == options.value[0].text
  {
    if options.None? then previous
    else match options.value[0]
      case StringOption(text) => Some(text)
      case _ => None
  }

  /**
   * The enrichment step: both member records and the guild are filled in, the
   * reason follows the options, and the flagged message and token are kept.
   */
  function Finish(r: Report, author: Member, reportee: Member, guild: string,
                  options: Option<seq<CommandOption>>): (f: Report)
    requires options.Some? ==> |options.value| > 0
    ensures f.message == r.message && f.token == r.token
    ensures f.author == Some(author) && f.reportee == Some(reportee) && f.guildId == Some(guild)
    ensures f.reason == ReasonFrom(options, r.reason)
  {
    r.(reason := ReasonFrom(options, r.reason), author := Some(author), reportee := Some(reportee), guildId := Some(guild))
  }

  /**
   * What a finished report's embed shows: the reporter's name in the title,
   * the flagged content, the reporter's and reportee's mentions and the reason
   * in the three fields, the guild in the footer (or, for an empty guild id,
   * the unfinished footer), and a link back to the flagged message.
   */
  predicate ShowsFinished(e: Embed, r: Report, author: Member, reportee: Member, guild: string, reason: Option<string>) {
    && ReporterName(e.title) == Some(UsernameOf(author))
    && Unfence(e.description) == Some(r.message.content)
    && e.fields.Some?
    && ReportFields(e.fields.value, UserIdOf(author), UserIdOf(reportee), ReasonText(reason))
    && ReportedTo(e.footer) == (if guild != "" then Some(guild) else None)
    && (guild == "" ==> e.footer == FOOTER_UNFINISHED)
    && e.author.url == MESSAGE_LINK_BASE + r.message.channelId + "/" + r.message.id
  }

  /**
   * `startReport`. A trigger that is not a message context-menu command, and
   * a report of one's own message, are refused with nothing written. Otherwise
   * exactly one put happens: a fresh, unfinished report of the flagged
   * message, keyed by the acting user, readable for REPORT_TTL and replacing
   * whatever that key held; the reply renders it unfinished.
   */
  function StartReport(i: Interaction, store: Store, now: int): (o: Outcome)
    requires i.data.commandType == MESSAGE_COMMAND ==> i.data.target.Some?
    ensures i.data.commandType != MESSAGE_COMMAND ==> o == Outcome(Notice(MAKE_FAILED), store, [])
    ensures i.data.commandType == MESSAGE_COMMAND && i.data.target.value.author.id == i.user.id ==>
              o == Outcome(Notice(SELF_REPORT), store, [])
    ensures o.reply.Notice? || o.reply.Rendered?
    ensures o.reply.Rendered? <==>
              i.data.commandType == MESSAGE_COMMAND && i.data.target.value.author.id != i.user.id
    ensures o.reply.Rendered? ==>
              && |o.log| == 1 && o.log[0].Put? && o.log[0].value.ReportJson?
              && o.log[0].key == i.user.id && o.log[0].ttl == Some(REPORT_TTL)
              && var r := o.log[0].value.report;
                 && r.message == i.data.target.value && r.token == i.token && Unfinished(r)
                 && o.reply.embed == ToEmbed(r)
                 && o.reply.embed.title == TITLE_UNFINISHED && o.reply.embed.fields.None?
                 && Unfence(o.reply.embed.description) == Some(i.data.target.value.content)
                 && forall t :: Kv.Get(o.store, i.user.id, t) == (if t < now + REPORT_TTL then Some(ReportJson(r)) else None)
    ensures forall k, t :: k != i.user.id ==> Kv.Get(o.store, k, t) == Kv.Get(store, k, t)
    ensures o.store == ApplyLog(store, o.log, now)
  {
    if i.data.commandType != MESSAGE_COMMAND then Outcome(Notice(MAKE_FAILED), store, [])
    else
      var m := i.data.target.value;
      if m.author.id == i.user.id then Outcome(Notice(SELF_REPORT), store, [])
      else
        var r := Report(m, i.token, None, None, None, None);
        var v := ReportJson(r);
        Outcome(Rendered(ToEmbed(r)), Kv.Put(store, i.user.id, v, Some(REPORT_TTL), now), [Put(i.user.id, v, Some(REPORT_TTL))])
  }

  /**
   * `finishReport`. The checks run in order: a pending report under the
   * acting user's key, both members in the guild, a logging channel for the
   * guild. Any failed check answers its own notice and changes nothing. On
   * success the finished report goes to the channel, then the original reply
   * is edited, then the user's key is deleted, all with the embed the reply
   * carries.
   */
  function FinishReport(i: Interaction, cfg: Config, store: Store, now: int, isMember: MemberLookup): (o: Outcome)
    requires i.guildId.Some?
    requires OptionsReadable(i.data)
    ensures Kv.Get(store, i.user.id, now).None? ==> o == Outcome(Notice(NOT_FOUND), store, [])
    ensures Kv.Get(store, i.user.id, now).Some? && Kv.Get(store, i.user.id, now).value.Text? ==>
              o == Outcome(Crashed, store, [])
    ensures !o.reply.Rendered? ==> o.store == store && o.log == []
    ensures var pending := Kv.Get(store, i.user.id, now);
            pending.Some? && pending.value.ReportJson? ==>
              var r := pending.value.report;
              var g := i.guildId.value;
              var a := isMember(g, i.user.id);
              var b := isMember(g, r.message.author.id);
              var dest := Kv.Get(store, g, now);
              && (a.None? || b.None? ==> o == Outcome(Notice(NOT_IN_SERVER), store, []))
              && (a.Some? && b.Some? && !(dest.Some? && Publishable(dest.value)) ==>
                    o == Outcome(Notice(NOT_TAKING), store, []))
              && (a.Some? && b.Some? && dest.Some? && Publishable(dest.value) ==>
                    && o.reply.Rendered?
                    && o.log == [Send(dest.value, o.reply.embed), Edit(cfg.appId, cfg.botToken, o.reply.embed), Delete(i.user.id)]
                    && o.reply.embed == ToEmbed(Finish(r, a.value, b.value, g, i.data.options))
                    && ShowsFinished(o.reply.embed, r, a.value, b.value, g, ReasonFrom(i.data.options, r.reason))
                    && forall t :: Kv.Get(o.store, i.user.id, t).None?)
    ensures forall k, t :: k != i.user.id ==> Kv.Get(o.store, k, t) == Kv.Get(store, k, t)
    ensures o.store == ApplyLog(store, o.log, now)
  {
    var user := i.user.id;
    var pending: Option<Value> := Kv.Get(store, user, now);
    match pending
    case None => Outcome(Notice(NOT_FOUND), store, [])
    case Some(Text(_)) => Outcome(Crashed, store, [])
    case Some(ReportJson(r)) =>
      var guild := i.guildId.value;
      var authorReq := isMember(guild, user);
      var reporteeReq := isMember(guild, r.message.author.id);
      if authorReq.None? || reporteeReq.None? then Outcome(Notice(NOT_IN_SERVER), store, [])
      else
        var finished := Finish(r, authorReq.value, reporteeReq.value, guild, i.data.options);
        var dest := Kv.Get(store, guild, now);
        if dest.Some? && Publishable(dest.value) then
          var e := ToEmbed(finished);
          ApplyDelivery(store, Send(dest.value, e), Edit(cfg.appId, cfg.botToken, e), user, now);
          Outcome(Rendered(e), Kv.Delete(store, user),
                  [Send(dest.value, e), Edit(cfg.appId, cfg.botToken, e), Delete(user)])
        else
          Outcome(Notice(NOT_TAKING), store, [])
  }

  /**
   * `setChannel`. A first option of type Channel makes that channel the
   * guild's logging channel for good (no expiry), overwriting any previous
   * one; anything else is refused with nothing written.
   */
  function SetChannel(i: Interaction, store: Store, now: int): (o: Outcome)
    requires i.guildId.Some?
    requires OptionsReadable(i.data)
    ensures i.data.options.Some? && i.data.options.value[0].ChannelOption? ==>
              var c := i.data.options.value[0].channelId;
              && o.log == [Put(i.guildId.value, Text(c), None)]
              && o.reply == Notice(CHANNEL_SET + c + ">")
              && forall t :: Kv.Get(o.store, i.guildId.value, t) == Some(Text(c))
    ensures !(i.data.options.Some? && i.data.options.value[0].ChannelOption?) ==>
              o == Outcome(Notice(SET_FAILED), store, [])
    ensures forall k, t :: k != i.guildId.value ==> Kv.Get(o.store, k, t) == Kv.Get(store, k, t)
    ensures o.store == ApplyLog(store, o.log, now)
  {
    if i.data.options.Some? && i.data.options.value[0].ChannelOption? then
      var c := i.data.options.value[0].channelId;
      Outcome(Notice(CHANNEL_SET + c + ">"), Kv.Put(store, i.guildId.value, Text(c), None, now),
              [Put(i.guildId.value, Text(c), None)])
    else
      Outcome(Notice(SET_FAILED), store, [])
  }
}

=== FILE: reports.dfy ===
/**
 * The report record and its rendering as an embed (`reportToEmbed`).
 * Each part of the rendering comes with a reader that recovers what was
 * rendered, so the contracts say what the embed carries rather than how the
 * strings are glued together.
 */
module Reports {
  import opened Wrappers
  import opened Discord

  /**
   * A report: the flagged message and the token of the interaction that
   * captured it, plus what finalisation fills in (reason, the two member
   * records, the guild it was finalised in).
   */
  datatype Report = Report(
    message: Message,
    token: string,
    reason: Option<string>,
    author: Option<Member>,
    reportee: Option<Member>,
    guildId: Option<string>)

  /** A report as captured: nothing is filled in beyond the message and the token. */
  predicate Unfinished(r: Report) {
    r.reason.None? && r.author.None? && r.reportee.None? && r.guildId.None?
  }

  const SOURCE_LABEL: string := "Message source verified"
  const MESSAGE_LINK_BASE: string := "https://discord.com/channels/@me/"
  const SOURCE_ICON: string := "https://cdn.discordapp.com/emojis/751159037378297976.png?quality=lossless"
  const TITLE_FROM: string := "DM Report from "
  const TITLE_UNFINISHED: string := "DM Report (unfinished)"
  const FENCE_OPEN: string := "||```\n"
  const FENCE_CLOSE: string := "\n```||"
  const REPORTER_FIELD: string := "Reporter"
  const REPORTED_FIELD: string := "Reported"
  const REASON_FIELD: string := "Reason"
  const NO_REASON: string := "No reason provided."
  const FOOTER_TO: string := "Reported to "
  // Written as two literals: the verifier reads the characters of a short
  // literal but not of one this long, and `UnfinishedTextsDifferFromPrefixes`
  // needs the first character.
  const FOOTER_UNFINISHED: string :=
    "Use the /report command" + " in a server using this bot to complete your report"

  /** `${member.user?.username}`: a member without a user prints as "undefined". */
  function UsernameOf(m: Member): string {
    if m.user.Some? then m.user.value.username else "undefined"
  }

  /** `member.user?.id ?? ''`. */
  function UserIdOf(m: Member): string {
    if m.user.Some? then m.user.value.id else ""
  }

  /** The Reason field's text: the reason, or a placeholder when there is none. */
  function ReasonText(reason: Option<string>): string {
    reason.GetOr(NO_REASON)
  }

  /** `s` with `prefix` removed from its front, when `s` starts with it. */
  function After(prefix: string, s: string): Option<string> {
    if |prefix| <= |s| && s[..|prefix|] == prefix then Some(s[|prefix|..]) else None
  }

  lemma AfterPrefix(prefix: string, rest: string)
    ensures After(prefix, prefix + rest) == Some(rest)
  {
  }

  /** The message content, fenced as a code block and hidden behind a spoiler. */
  function Fence(content: string): string {
    FENCE_OPEN + content + FENCE_CLOSE
  }

  /** Recovers the content from a fenced description. */
  function Unfence(d: string): Option<string> {
    if |FENCE_OPEN| + |FENCE_CLOSE| <= |d|
       && d[..|FENCE_OPEN|] == FENCE_OPEN
       && d[|d| - |FENCE_CLOSE|..] == FENCE_CLOSE
    then Some(d[|FENCE_OPEN|..|d| - |FENCE_CLOSE|])
    else None
  }

  /** A description reads back as `content` exactly when it is `content` fenced. */
  lemma UnfenceInvertsFence(content: string, d: string)
    ensures Unfence(d) == Some(content) <==> d == Fence(content)
  {
  }

  /** A user mention, `<@id>`. */
  function Mention(id: string): string {
    "<@" + id + ">"
  }

  /** Recovers the id from a mention. */
  function Unmention(s: string): Option<string> {
    if 3 <= |s| && s[..2] == "<@" && s[|s| - 1] == '>' then Some(s[2..|s| - 1]) else None
  }

  /** A field value reads back as `id` exactly when it is the mention of `id`. */
  lemma UnmentionInvertsMention(id: string, s: string)
    ensures Unmention(s) == Some(id) <==> s == Mention(id)
  {
  }

  /** The reporter's name as the title shows it, if the title names one. */
  function ReporterName(title: string): Option<string> {
    After(TITLE_FROM, title)
  }

  /** The guild a footer says the report went to, if it says so. */
  function ReportedTo(footer: string): Option<string> {
    After(FOOTER_TO, footer)
  }

  /** The three fields of a finished report, in order, with the given contents. */
  predicate ReportFields(fs: seq<Field>, reporterId: string, reportedId: string, reason: string) {
    && |fs| == 3
    && fs[0].name == REPORTER_FIELD && fs[0].inline && Unmention(fs[0].value) == Some(reporterId)
    && fs[1].name == REPORTED_FIELD && fs[1].inline && Unmention(fs[1].value) == Some(reportedId)
    && fs[2].name == REASON_FIELD && !fs[2].inline && fs[2].value == reason
  }

  /** The title: who filed the report, or that it is unfinished. */
  function Title(r: Report): string {
    if r.author.Some? then TITLE_FROM + UsernameOf(r.author.value) else TITLE_UNFINISHED
  }

  /** Reporter, Reported and Reason, once both member records are known. */
  function Fields(r: Report): Option<seq<Field>> {
    if r.author.Some? && r.reportee.Some? then
      Some([Field(REPORTER_FIELD, true, Mention(UserIdOf(r.author.value))),
            Field(REPORTED_FIELD, true, Mention(UserIdOf(r.reportee.value))),
            Field(REASON_FIELD, false, ReasonText(r.reason))])
    else None
  }

  /** The footer: the guild the report went to, or how to finish it. */
  function Footer(r: Report): string {
    if Truthy(r.guildId) then FOOTER_TO + r.guildId.value else FOOTER_UNFINISHED
  }

  /**
   * The unfinished title and footer never read as naming a reporter or a
   * guild: "DM Report (unfinished)" parts from "DM Report from " at its
   * eleventh character, and the footer's "Use …" from "Reported to " at its first.
   */
  lemma UnfinishedTextsDifferFromPrefixes()
    ensures ReporterName(TITLE_UNFINISHED) == None
    ensures ReportedTo(FOOTER_UNFINISHED) == None
  {
    assert TITLE_UNFINISHED[10] != TITLE_FROM[10];
    assert FOOTER_UNFINISHED[0] != FOOTER_TO[0];
  }

  lemma TitleReadsBack(r: Report)
    ensures ReporterName(Title(r)) == (if r.author.Some? then Some(UsernameOf(r.author.value)) else None)
  {
    if r.author.Some? {
      AfterPrefix(TITLE_FROM, UsernameOf(r.author.value));
    } else {
      UnfinishedTextsDifferFromPrefixes();
    }
  }

  lemma FooterReadsBack(r: Report)
    ensures ReportedTo(Footer(r)) == (if Truthy(r.guildId) then r.guildId else None)
  {
    if Truthy(r.guildId) {
      AfterPrefix(FOOTER_TO, r.guildId.value);
    } else {
      UnfinishedTextsDifferFromPrefixes();
    }
  }

  lemma FieldsReadBack(r: Report)
    ensures Fields(r).Some? ==>
              ReportFields(Fields(r).value, UserIdOf(r.author.value), UserIdOf(r.reportee.value), ReasonText(r.reason))
  {
  }

  /**
   * `reportToEmbed`. The title names the reporter once one is known and says
   * "unfinished" otherwise; the description gives back the flagged message's
   * content verbatim; the three fields exist exactly when both member records
   * are known; the footer names the guild once it is known (and non-empty);
   * the embed's author block links back to the flagged message.
   */
  function ToEmbed(r: Report): (e: Embed)
    ensures ReporterName(e.title) == (if r.author.Some? then Some(UsernameOf(r.author.value)) else None)
    ensures r.author.None? ==> e.title == TITLE_UNFINISHED
    ensures Unfence(e.description) == Some(r.message.content)
    ensures e.fields.Some? <==> r.author.Some? && r.reportee.Some?
    ensures e.fields.Some? ==>
              ReportFields(e.fields.value, UserIdOf(r.author.value), UserIdOf(r.reportee.value), ReasonText(r.reason))
    ensures ReportedTo(e.footer) == (if Truthy(r.guildId) then r.guildId else None)
    ensures !Truthy(r.guildId) ==> e.footer == FOOTER_UNFINISHED
    ensures e.author.url == MESSAGE_LINK_BASE + r.message.channelId + "/" + r.message.id
  {
    TitleReadsBack(r);
    FooterReadsBack(r);
    FieldsReadBack(r);
    UnfenceInvertsFence(r.message.content, Fence(r.message.content));
    Embed(
      EmbedAuthor(SOURCE_LABEL, MESSAGE_LINK_BASE + r.message.channelId + "/" + r.message.id, SOURCE_ICON),
      Title(r),
      Fence(r.message.content),
      Fields(r),
      Footer(r))
  }
}

=== FILE: router.dfy ===
/**
 * The worker's `fetch` entry point, and runs of it over a sequence of
 * requests. The signature check (an Ed25519 verification in a library) is
 * an input: whether the request's signature is valid.
 */
module Router {
  import opened Discord
  import opened Lifecycle
  import opened ReportLaws

  const REPORT_COMMAND: string := "report"
  const SETCHANNEL_COMMAND: string := "setchannel"

  /** What the handler a command is routed to needs of it in order not to throw. */
  predicate Routable(i: Interaction) {
    if Truthy(i.guildId) then
      (i.data.name == REPORT_COMMAND || i.data.name == SETCHANNEL_COMMAND) ==> OptionsReadable(i.data)
    else
      i.data.commandType == MESSAGE_COMMAND ==> i.data.target.Some?
  }

  /**
   * `fetch`. A bad signature is refused with 401 and nothing else happens; a
   * ping is answered with a pong; an application command from a guild goes
   * to `finishReport` or `setChannel` by name (any other name is refused with
   * 401); an application command from outside a guild goes to `startReport`,
   * whatever its command type; every other interaction type is refused with
   * 401.
   */
  function Fetch(signatureValid: bool, i: Interaction, cfg: Config, store: Store, now: int,
                 isMember: MemberLookup): (o: Outcome)
    requires signatureValid && i.kind == APPLICATION_COMMAND ==> Routable(i)
    ensures !signatureValid ==> o == Outcome(Unauthorized, store, [])
    ensures signatureValid && i.kind == PING ==> o == Outcome(Pong, store, [])
    ensures signatureValid && i.kind != PING && i.kind != APPLICATION_COMMAND ==>
              o == Outcome(Unauthorized, store, [])
    ensures signatureValid && i.kind == APPLICATION_COMMAND && Truthy(i.guildId) ==>
              if i.data.name == REPORT_COMMAND then o == FinishReport(i, cfg, store, now, isMember)
              else if i.data.name == SETCHANNEL_COMMAND then o == SetChannel(i, store, now)
              else o == Outcome(Unauthorized, store, [])
    ensures signatureValid && i.kind == APPLICATION_COMMAND && !Truthy(i.guildId) ==>
              o == StartReport(i, store, now)
    ensures o.reply == Unauthorized ==> o.store == store && o.log == []
    ensures o.store == ApplyLog(store, o.log, now)
  {
    if !signatureValid then Outcome(Unauthorized, store, [])
    else if i.kind == PING then Outcome(Pong, store, [])
    else if i.kind == APPLICATION_COMMAND then
      if Truthy(i.guildId) then
        if i.data.name == REPORT_COMMAND then FinishReport(i, cfg, store, now, isMember)
        else if i.data.name == SETCHANNEL_COMMAND then SetChannel(i, store, now)
        else Outcome(Unauthorized, store, [])
      else StartReport(i, store, now)
    else Outcome(Unauthorized, store, [])
  }

  lemma FetchKeepsReports(signatureValid: bool, i: Interaction, cfg: Config, store: Store, now: int,
                          isMember: MemberLookup)
    requires signatureValid && i.kind == APPLICATION_COMMAND ==> Routable(i)
    requires ReportsWellKept(store)
    ensures ReportsWellKept(Fetch(signatureValid, i, cfg, store, now, isMember).store)
  {
  }

  lemma FetchPublishesWithin(signatureValid: bool, i: Interaction, cfg: Config, store: Store, now: int,
                             isMember: MemberLookup)
    requires signatureValid && i.kind == APPLICATION_COMMAND ==> Routable(i)
    ensures PublishesWithin(store, Fetch(signatureValid, i, cfg, store, now, isMember))
  {
    if signatureValid && i.kind == APPLICATION_COMMAND {
      if !Truthy(i.guildId) {
        StartReportPublishesWithin(i, store, now);
      } else if i.data.name == REPORT_COMMAND {
        FinishReportPublishesWithin(i, cfg, store, now, isMember);
      } else if i.data.name == SETCHANNEL_COMMAND {
        SetChannelPublishesWithin(i, store, now);
      }
    }
  }

  /** One inbound request: its signature verdict, its interaction, and the time it is handled. */
  datatype Request = Request(signatureValid: bool, interaction: Interaction, now: int)

  predicate Handleable(q: Request) {
    q.signatureValid && q.interaction.kind == APPLICATION_COMMAND ==> Routable(q.interaction)
  }

  /** The replies to a run of requests, the namespace after it, and every effect issued, in order. */
  datatype Trace = Trace(replies: seq<Reply>, store: Store, log: seq<Effect>)

  /**
   * Requests handled one after another, each seeing the namespace the one
   * before it left: one reply per request, the first being `fetch`'s answer
   * to the first request.
   */
  function Run(qs: seq<Request>, cfg: Config, store: Store, isMember: MemberLookup): (t: Trace)
    requires forall k :: 0 <= k < |qs| ==> Handleable(qs[k])
    ensures |t.replies| == |qs|
    ensures qs != [] ==>
              Handleable(qs[0]) &&
              t.replies[0] == Fetch(qs[0].signatureValid, qs[0].interaction, cfg, store, qs[0].now, isMember).reply
    decreases |qs|
  {
    if qs == [] then Trace([], store, [])
    else
      assert Handleable(qs[0]);
      var o := Fetch(qs[0].signatureValid, qs[0].interaction, cfg, store, qs[0].now, isMember);
      var rest := Run(qs[1..], cfg, o.store, isMember);
      Trace([o.reply] + rest.replies, rest.store, o.log + rest.log)
  }

  /**
   * Each request in a run is answered as `fetch` answers it alone, given the
   * namespace the requests before it left behind.
   */
  lemma {:induction false} RunAnswersEachRequest(qs: seq<Request>, cfg: Config, store: Store, isMember: MemberLookup,
                                                 k: nat)
    requires forall j :: 0 <= j < |qs| ==> Handleable(qs[j])
    requires k < |qs|
    ensures Handleable(qs[k])
    ensures Run(qs, cfg, store, isMember).replies[k]
            == Fetch(qs[k].signatureValid, qs[k].interaction, cfg, Run(qs[..k], cfg, store, isMember).store,
                     qs[k].now, isMember).reply
    decreases k
  {
    assert Handleable(qs[k]);
    if k == 0 {
      assert qs[..0] == [];
    } else {
      assert Handleable(qs[0]);
      var o := Fetch(qs[0].signatureValid, qs[0].interaction, cfg, store, qs[0].now, isMember);
      var rest := qs[1..];
      assert forall j :: 0 <= j < |rest| ==> Handleable(rest[j]) by {
        forall j | 0 <= j < |rest| ensures Handleable(rest[j]) {
          assert rest[j] == qs[j + 1];
        }
      }
      RunAnswersEachRequest(rest, cfg, o.store, isMember, k - 1);
      assert rest[k - 1] == qs[k];
      var prefix := qs[..k];
      assert prefix[0] == qs[0];
      assert prefix[1..] == rest[..k - 1];
      assert Run(prefix, cfg, store, isMember).store == Run(rest[..k - 1], cfg, o.store, isMember).store;
    }
  }

  /** No run of requests ever leaves a self-report, a half-finished report or a report without expiry in the namespace. */
  lemma {:induction false} RunKeepsReports(qs: seq<Request>, cfg: Config, store: Store, isMember: MemberLookup)
    requires forall k :: 0 <= k < |qs| ==> Handleable(qs[k])
    requires ReportsWellKept(store)
    ensures ReportsWellKept(Run(qs, cfg, store, isMember).store)
    decreases |qs|
  {
    if qs != [] {
      var q := qs[0];
      FetchKeepsReports(q.signatureValid, q.interaction, cfg, store, q.now, isMember);
      var o := Fetch(q.signatureValid, q.interaction, cfg, store, q.now, isMember);
      RunKeepsReports(qs[1..], cfg, o.store, isMember);
    }
  }

  /**
   * Over any run, what is published plus the reports left in the namespace
   * never exceeds the reports there at the start plus the reports captured.
   */
  lemma {:induction false} RunPublishesWithin(qs: seq<Request>, cfg: Config, store: Store, isMember: MemberLookup)
    requires forall k :: 0 <= k < |qs| ==> Handleable(qs[k])
    ensures var t := Run(qs, cfg, store, isMember);
            Sends(t.log) + |ReportKeys(t.store)| <= |ReportKeys(store)| + ReportPuts(t.log)
    decreases |qs|
  {
    if qs != [] {
      var q := qs[0];
      FetchPublishesWithin(q.signatureValid, q.interaction, cfg, store, q.now, isMember);
      var o := Fetch(q.signatureValid, q.interaction, cfg, store, q.now, isMember);
      RunPublishesWithin(qs[1..], cfg, o.store, isMember);
      CountsAppend(o.log, Run(qs[1..], cfg, o.store, isMember).log);
    }
  }

  /**
   * Each captured report is published at most once: starting from a namespace
   * with no reports, a run never publishes more than it captured.
   */
  lemma PublishedAtMostOnce(qs: seq<Request>, cfg: Config, store: Store, isMember: MemberLookup)
    requires forall k :: 0 <= k < |qs| ==> Handleable(qs[k])
    requires ReportKeys(store) == {}
    ensures var t := Run(qs, cfg, store, isMember);
            Sends(t.log) <= ReportPuts(t.log)
  {
    RunPublishesWithin(qs, cfg, store, isMember);
  }
}

=== FILE: wrappers.dfy ===
/** Optional values: the model's stand-in for the source's `T | null` and `T | undefined`. */
module Wrappers {

  datatype Option<+T> = None | Some(value: T) {

    /** The wrapped value, or `default` when there is none (the source's `??`). */
    function GetOr(default: T): T {
      match this
      case Some(v) => v
      case None => default
    }
  }
}
